=== FILE: README.md ===
# the-simple-man, modelled in Dafny

A model of the integer core of "the-simple-man", a Game Boy Advance game
written in Rust. The model has four parts:

- **The tile de-duplicator** (`generate_background_map`, a build-time
  procedural macro). It cuts an RGB image into 8x8 blocks and scans the
  block grid row by row. Each block's 64 pixels are compared with a growing
  list of unique blocks. The result is a grid of indices into that list.
  The model proves three things:
  - the index grid has the shape of the block grid;
  - every index points at that block's content;
  - two cells share an index exactly when their blocks are equal.

  It also proves that the unique list is the list of distinct blocks in
  first-seen order, against an independent reference definition, and that
  first occurrences receive the indices 0, 1, 2, ... in ascending order.
- **The scrolling prototype** (`src/app.rs`). There are four collision
  predicates on a 32x32 map, and only tile 5 is walkable. The frame's
  scroll update uses them, moving the horizontal axis first.
- **The level prototype** (`src/app_ret.rs`). `check_boundary` reads four
  cells of a 64x32 level, and tile 1 is a wall. The file also has the
  character's tag and animation tick, the drifting static object, and the
  `run` loop with its one-frame-in-five divider.
- **The step-movement prototype** (`src/app_bc.rs`). A key press starts a
  movement of `STEP` = 32 only while the character is idle. Each tick moves
  one pixel and counts down, so a movement lasts exactly `step + 1` ticks.

Rust semantics that the game depends on are written out explicitly:

- An out-of-range array index panics. It is modelled as the `Panic` case
  of a `Result`, never as a precondition.
- A negative `i16` cast to `usize` is out of range.
- `/` and `%` round toward zero (`RustCore.Quot8` and `RustCore.Rem8`).
- `||` short-circuits, so a later cell is not indexed once an earlier one
  decides the result.

Modules follow the source files: `Mapgen`, `App`, `AppRet` and `AppBc`.
They share four small modules:

- `RustCore`: `Option`, the panic result, truncating division and 2-D
  indexing.
- `Input`: the direction pad and its per-axis `Tri` reading.
- `Sprites`: the four tags and the frame-counter rule.
- `Clock`: the `count % 5` divider.

A block is collected column by column. The outer loop runs over the x
offset `i` and the inner loop over the y offset `r`
(mapgen/src/lib.rs:29-31), and `Mapgen.Offset(i, r) = 8*i + r` records
this order.

## Model

| member | source | states |
|---|---|---|
| Mapgen.CollectTile | mapgen/src/lib.rs:27-33 | The collected block is the 64 pixels of block (m, n), with the pixel at x offset i and y offset r at position 8*i + r. |
| Mapgen.Position | mapgen/src/lib.rs:34-36 | The search returns the first index holding the block, and none exactly when the block is absent. |
| Mapgen.Intern | mapgen/src/lib.rs:34-44 | The block is appended to the list only when it is new. The returned index points at the block, a new block gets the old length, and the list stays free of duplicates. |
| Mapgen.ScanStep | mapgen/src/lib.rs:34-44 | Interning one more block preserves the scan invariant: every emitted index points at its block, the list is the first-seen palette of the blocks scanned, and it only grows. |
| Mapgen.ScanRow | mapgen/src/lib.rs:24-46 | One block row yields one index per block, each pointing at that block. The unique list only grows, and the scan invariant holds over the row. |
| Mapgen.GenerateBackgroundMap | mapgen/src/lib.rs:18-47 | The result has Rows x Columns entries and each points at its block. Two cells share an index if and only if their blocks are equal. The unique list is the first-seen palette of the row-major block sequence: no duplicates, every block present, ordered by first occurrence (equal to the reference fold by `Mapgen.PaletteIsFirstSeen`). Indices first appear in ascending order 0, 1, 2, ... The list is no longer than the number of blocks. |
| Mapgen.BlockCount | mapgen/src/lib.rs:18-26 | The row-major scan visits exactly Rows x Columns whole blocks. Partial blocks at the right and bottom edges are dropped. |
| Mapgen.PaletteIsFirstSeen | mapgen/src/lib.rs:21-44 | A list holds the distinct blocks in order of first occurrence if and only if it equals the reference fold that appends each block not yet seen. |
| Mapgen.FirstSeenIsPalette | mapgen/src/lib.rs:21-44 | The reference fold yields distinct elements, covers the input, and is ordered by first occurrence. |
| Mapgen.IndicesAscend | mapgen/src/lib.rs:38-43 | When indices point into a first-seen list, every index below its length is used, and first uses appear in increasing order. |
| RustCore.Quot8 | src/app_ret.rs:200-201 | `a / 8` rounds toward zero: 8*q lies between 0 and a, less than 8 away from a. |
| RustCore.Rem8 | src/app.rs:160 | `a % 8` takes the sign of a and satisfies a == 8*(a/8) + a%8. |
| RustCore.Index2 | src/app_ret.rs:203-207 | Indexing yields the element exactly when both indices are in range, and panics otherwise. |
| App.FirstUnwalkable | src/app.rs:173-175 | The first cell that is off the map or holds a tile other than 5: every cell before it is on the map and walkable, and it is not. When every cell is walkable, the result is the number of cells. |
| App.AnyNotWalkable | src/app.rs:173-175 | The short-circuit chain of `!= 5` tests returns false if and only if every cell is on the map and walkable. Otherwise the first cell that is not walkable decides: true if and only if it is on the map and holds another tile, and a panic if and only if it is off the map. |
| App.Probe3 | src/app.rs:173-175 | For three in-range cells the result is the disjunction of "not 5". False means all three cells are walkable. Because `||` short-circuits, it panics if and only if the chain reaches a cell that is off the map with every cell before it walkable (`App.ChainPanics`). |
| App.PathRightBlocked | src/app.rs:154-176 | An unaligned x offset never blocks. An aligned one samples column x/8 + 3 at rows y/8 + 1..3, with y/8 rounded toward zero. The path is clear if and only if those three cells are walkable. It panics if and only if a sample is off the map and every sample before it is walkable. |
| App.PathLeftBlocked | src/app.rs:178-200 | As to the right, but it samples the character's own column x/8, because the computed `next_tile` is unused. |
| App.PathUpBlocked | src/app.rs:202-224 | An unaligned y offset never blocks. An aligned one samples row y/8 at columns x/8 + 1..3. The path is clear if and only if those cells are walkable. It panics if and only if a sample is off the map and every sample before it is walkable. |
| App.PathDownBlocked | src/app.rs:226-248 | As upward, but it samples row y/8 + 3. |
| App.StepX | src/app.rs:117-129 | With no horizontal input the scroll stays. Otherwise the scroll moves one pixel in the input direction if and only if that direction's predicate reports the candidate clear, and it stays if and only if the predicate reports it blocked. |
| App.StepY | src/app.rs:131-143 | The same rule on the vertical axis, with Down for positive and Up for negative. |
| App.ScrollFrame | src/app.rs:113-143 | Each axis moves by 0 or by the input's sign. The frame succeeds if and only if both steps do. The vertical step is checked against the already-updated horizontal scroll. |
| AppRet.CheckBoundary | src/app_ret.rs:199-210 | The check succeeds if and only if all four sampled cells, at offsets scroll/8 rounded toward zero, are on the level. The result is true if and only if one of them is a wall. |
| AppRet.OnlyWallsBlock | src/app_ret.rs:199-210 | Two levels with the same wall pattern give the same result: only tile 1 matters. |
| AppRet.CharTick | src/app_ret.rs:48-81 | Held directions set the tag with priority LEFT > RIGHT > UP > DOWN. With nothing held, the character is unchanged. Otherwise the frame counter advances against the new tag's sprite count and stays at most count + 1. |
| AppRet.StaticTick | src/app_ret.rs:106-127 | The object moves 2 pixels against the horizontal input. Only when that is zero does it move 2 pixels against the vertical input. Its frame counter always advances. |
| AppRet.Frame | src/app_ret.rs:167-196 | The counter follows the five-frame divider, and the character ticks exactly on due frames. The frame panics if and only if the boundary check at the candidate scroll panics. A clear check adopts the candidate, and a blocked one keeps the scroll. |
| AppRet.FramesFollowClock | src/app_ret.rs:163-193 | Across any input sequence the loop counter equals the divider's count after that many frames. |
| AppRet.TickSchedule | src/app_ret.rs:163-180 | From the start of `run` the counter stays within 1..5, and the character ticks exactly in frames 0, 5, 10, ... |
| AppBc.Process | src/app_bc.rs:62-78 | A movement in progress ignores input. When idle, vertical input wins with Down or Up, otherwise horizontal input starts Right or Left. A new movement has step 32, no input changes nothing, and the step bound is preserved. |
| AppBc.Tick | src/app_bc.rs:80-120 | Idle means unchanged. Otherwise the character moves one pixel in the movement's direction and faces it, and the frame counter advances against the new tag. The movement ends if and only if its step was 0, and otherwise counts down by 1. |
| AppBc.MovementProgress | src/app_bc.rs:80-120 | After k <= s ticks a movement with step s is still in progress with s - k left, and has moved k pixels. |
| AppBc.MovementDisplacement | src/app_bc.rs:80-120 | A movement with step s >= 0 ends after exactly s + 1 ticks, having moved s + 1 pixels in its direction, and the character faces that direction. |
| AppBc.PressWalksStepPlusOne | src/app_bc.rs:62-120 | A press while idle walks the character 33 pixels, vertically if the vertical axis is pressed and otherwise horizontally. |
| AppBc.ProcessThenTick | src/app_bc.rs:140-141 | Processing the input and then ticking: a movement in progress only ticks. An idle character without input stays still. Otherwise the press starts a movement, vertical before horizontal, whose first pixel is moved at once with one step counted down. A moving result faces its movement, and a started movement advances the frame counter once against the new tag. |
| AppBc.DueWalk | src/app_bc.rs:137-141 | The tick, process, tick sequence of a due frame moves at most 2 pixels per axis and keeps a movement valid. An idle character without input stays still. Otherwise input starts a movement, vertical before horizontal, and its first pixel is moved at once with one step counted down. A movement in progress with step 1 or more moves two pixels in its direction and counts two steps down, ending if it had one step left. A movement at step 0 moves one pixel and ends, and then the held press, if any, starts a new movement whose first pixel is moved at once. A moving result faces its movement, and a movement that ends leaves the character facing its direction. A movement with step 1 or more advances the frame counter twice against its facing tag. |
| AppBc.Frame | src/app_bc.rs:134-149 | The counter follows the divider, and each frame moves the character at most 2 pixels per axis. An idle character stays still on a frame that is not due, or that is due but has no input. On a due frame, vertical input starts a movement, and otherwise horizontal input does; either way the first step is taken at once. A movement in progress advances one pixel and one step on a frame that is not due. On a due frame, a movement with step 1 or more advances two, and it ends if it had one step left. A movement at step 0 takes its last pixel and ends, and then the held press, if any, starts a new movement in the same frame. A moving character faces its movement, and one whose movement ends faces that movement's direction. On a frame that is not due, a movement in progress advances the frame counter once against its facing tag. |
| AppBc.FramesKeepValid | src/app_bc.rs:132-149 | Across any input sequence the step count stays within 0..=32, and the counter follows the divider. |
| AppBc.RunStaysValid | src/app_bc.rs:129-149 | From the start of `run` the movement state stays valid, and input is processed exactly in frames 0, 5, 10, ... |
| Sprites.NextFrame | src/app_ret.rs:72-76 | The counter wraps to 0 if and only if it exceeds the tag's sprite count, otherwise it increments, and it never exceeds count + 1. |
| Sprites.FrameRamp | src/app_ret.rs:117-121 | With a fixed tag, the counter climbs 0, 1, ..., count + 1, one step per tick. |
| Sprites.FrameCycle | src/app_ret.rs:117-121 | With a fixed tag, the counter is periodic with period count + 2. |
| Clock.Next | src/app_ret.rs:173-193 | The counter at the end of a frame is 1 after a due frame and one more than before after any other frame. From a counter within 0..5 it lands within 1..5. |
| Clock.Schedule | src/app_ret.rs:163-193 | From count 0, after k >= 1 frames the counter is (k - 1) % 5 + 1. So frame k is due exactly when 5 divides k. |
| Clock.RunFrom | src/app_ret.rs:173-193 | From any counter value c in 1..5, k frames later the counter is (c - 1 + k) % 5 + 1. |

## Left out

- Image decoding and the `unwrap`s on opening and decoding the file (mapgen/src/lib.rs:12-16) are I/O. The model starts from a decoded RGB image.
- The `quote!` emission of the result as a Rust array literal (mapgen/src/lib.rs:49-53) is code generation. The model returns the index grid itself.
- All agb hardware calls are left out: VBlank waits, OAM sprite objects and `commit`, background creation, palette and VRAM upload, logging. The sprite position is kept as the character's coordinates.
- The `Background::new` upload loops and the game's data tables are left out. The tables are the sprite sheet `GRAPHICS` with its four `CHAR_*` tags (`src/tiles.rs:6-11`), the level `LEVEL_MAP` that `src/app_ret.rs:17` imports from `crate::background` (`src/background.rs` is not part of this model), and the tile map that `generate_background_map!("gfx/bg.png")` produces at `src/app.rs:72`. Maps and levels are parameters, and the per-tag sprite count is a parameter `sprites`.
- `main.rs` only selects which prototype runs, and is not part of this model.
- The agb `ButtonController` is not part of this model. `x_tri`/`y_tri` are modelled as RIGHT minus LEFT and DOWN minus UP.
- `Char::process` and `Char::tick` in `src/app.rs:53-59` have `todo!()` bodies, and their calls at `src/app.rs:144-145` are commented out. `Char::new` and `Char::place` do run (`src/app.rs:107-108`), but they only create and position a sprite, which is display work with no state the loop reads back.
- App.PathRightBlocked: does not model `i16` overflow of `104 + scroll_x`. Scroll values are unbounded integers, which agrees with the source whenever it does not overflow.
- App.PathLeftBlocked: does not model `i16` overflow, for the same reason.
- App.PathUpBlocked: does not model `i16` overflow, for the same reason.
- App.PathDownBlocked: does not model `i16` overflow, for the same reason.
- App.ScrollFrame: does not model `i16` overflow of `scroll_x ± 1`.
- AppRet.Frame: does not model `i16` overflow of the scroll position.
- AppRet.Frame: assumes the mGBA debug logger is present; the `unwrap` at `src/app_ret.rs:168` is not modelled.
- AppBc.Tick: the sprite coordinates are unbounded integers. The hardware register width of the sprite position is not modelled.
- Sprites.NextFrame: the sprite chosen from the frame counter (`animation_sprite`, which wraps inside agb) is not modelled, only the counter.

=== FILE: app.dfy ===
/** The scrolling prototype of the game: the background is a 32x32 map of
    tile indices (the output of the tile de-duplicator), the character stays at
    screen position (104, 64), and the arrow keys scroll the background one
    pixel per frame unless a collision predicate reports the path blocked. Only
    tile index 5 is walkable. */
module App {
  import opened RustCore
  import opened Input

  /** `INITIAL_COORDINATES`: where the character sits on screen. */
  const InitX: int := 104
  const InitY: int := 64

  /** Side of the background map, in tiles. */
  const MapSide: nat := 32

  /** The only tile index the character may walk over. */
  const Walkable: nat := 5

  /** A `[[usize; 32]; 32]` tile map, indexed `[row][column]`. */
  predicate IsTileMap(t: seq<seq<nat>>) {
    |t| == MapSide && forall r :: 0 <= r < MapSide ==> |t[r]| == MapSide
  }

  /** A sampled map cell. */
  datatype Cell = Cell(row: int, col: int)

  /** The cell lies inside the map and holds the walkable tile. */
  predicate WalkableAt(t: seq<seq<nat>>, c: Cell) {
    InBounds(t, c.row, c.col) && t[c.row][c.col] == Walkable
  }

  /** The cell lies inside the map and holds any other tile. */
  predicate SolidAt(t: seq<seq<nat>>, c: Cell) {
    InBounds(t, c.row, c.col) && t[c.row][c.col] != Walkable
  }

  /** Whether the chain `t[c0] != 5 || t[c1] != 5 || t[c2] != 5` reaches a
      cell that is off the map: a cell is indexed only when every earlier one
      held the walkable tile. */
  predicate ChainPanics(t: seq<seq<nat>>, c0: Cell, c1: Cell, c2: Cell) {
    || !InBounds(t, c0.row, c0.col)
    || (WalkableAt(t, c0) &&
         (!InBounds(t, c1.row, c1.col) || (WalkableAt(t, c1) && !InBounds(t, c2.row, c2.col))))
  }

  /** The index of the first cell that is off the map or not walkable, or
      the number of cells when every one is walkable. */
  function FirstUnwalkable(t: seq<seq<nat>>, cells: seq<Cell>): (i: nat)
    ensures i <= |cells|
    ensures forall j :: 0 <= j < i ==> WalkableAt(t, cells[j])
    ensures i < |cells| ==> !WalkableAt(t, cells[i])
    decreases |cells|
  {
    if |cells| == 0 || !WalkableAt(t, cells[0]) then 0
    else 1 + FirstUnwalkable(t, cells[1..])
  }

  /** `t[c0] != 5 || t[c1] != 5 || ...` under Rust's left-to-right,
      short-circuit evaluation: a cell is indexed only when every earlier one
      held the walkable tile, so the first cell that is not walkable decides
      the outcome: false if there is none, true if it holds another tile, a
      panic if it is off the map. */
  function AnyNotWalkable(t: seq<seq<nat>>, cells: seq<Cell>): (r: Result<bool>)
    ensures r == Ok(false) <==> forall i :: 0 <= i < |cells| ==> WalkableAt(t, cells[i])
    ensures
      var i := FirstUnwalkable(t, cells);
      && (r == Ok(true) <==> i < |cells| && SolidAt(t, cells[i]))
      && (r.Panic? <==> i < |cells| && !InBounds(t, cells[i].row, cells[i].col))
    decreases |cells|
  {
    if |cells| == 0 then Ok(false)
    else
      var v :- Index2(t, cells[0].row, cells[0].col);
      if v != Walkable then Ok(true) else AnyNotWalkable(t, cells[1..])
  }

  /** The three-cell form every collision predicate uses. */
  function Probe3(t: seq<seq<nat>>, c0: Cell, c1: Cell, c2: Cell): (r: Result<bool>)
    ensures InBounds(t, c0.row, c0.col) && InBounds(t, c1.row, c1.col) && InBounds(t, c2.row, c2.col) ==>
      r == Ok(t[c0.row][c0.col] != Walkable || t[c1.row][c1.col] != Walkable || t[c2.row][c2.col] != Walkable)
    ensures r == Ok(false) <==> WalkableAt(t, c0) && WalkableAt(t, c1) && WalkableAt(t, c2)
    ensures r.Panic? <==> ChainPanics(t, c0, c1, c2)
  {
    var cells := [c0, c1, c2];
    assert cells[0] == c0 && cells[1] == c1 && cells[2] == c2;
    AnyNotWalkable(t, cells)
  }

  /** `path_right_blocked`: only when the character's pixel column
      `104 + scroll_x` is a multiple of 8 does it look at the map, sampling the
      column three tiles right of the character's tile, at rows 1 to 3 below
      it. The row is rounded toward zero. */
  function PathRightBlocked(scrollX: int, scrollY: int, t: seq<seq<nat>>): (r: Result<bool>)
    requires IsTileMap(t)
    ensures (InitX + scrollX) % 8 != 0 ==> r == Ok(false)
    ensures (InitX + scrollX) % 8 == 0 ==>
      var col := (InitX + scrollX) / 8 + 3;
      var row := Quot8(InitY + scrollY);
      && (0 <= col < MapSide && 0 <= row + 1 && row + 3 < MapSide ==>
            r == Ok(t[row + 1][col] != Walkable || t[row + 2][col] != Walkable || t[row + 3][col] != Walkable))
      && (r == Ok(false) <==>
            WalkableAt(t, Cell(row + 1, col)) && WalkableAt(t, Cell(row + 2, col)) && WalkableAt(t, Cell(row + 3, col)))
      && (r.Panic? <==> ChainPanics(t, Cell(row + 1, col), Cell(row + 2, col), Cell(row + 3, col)))
  {
    var offsetX := InitX + scrollX;
    if Rem8(offsetX) != 0 then Ok(false)
    else
      var nextTile := Quot8(offsetX) + 3;
      var tileY := Quot8(InitY + scrollY);
      Probe3(t, Cell(tileY + 1, nextTile), Cell(tileY + 2, nextTile), Cell(tileY + 3, nextTile))
  }

  /** `path_left_blocked`: the same alignment guard as to the right, but it
      samples the character's own tile column (the `next_tile` it computes is
      never used), at rows 1 to 3 below it. */
  function PathLeftBlocked(scrollX: int, scrollY: int, t: seq<seq<nat>>): (r: Result<bool>)
    requires IsTileMap(t)
    ensures (InitX + scrollX) % 8 != 0 ==> r == Ok(false)
    ensures (InitX + scrollX) % 8 == 0 ==>
      var col := (InitX + scrollX) / 8;
      var row := Quot8(InitY + scrollY);
      && (0 <= col < MapSide && 0 <= row + 1 && row + 3 < MapSide ==>
            r == Ok(t[row + 1][col] != Walkable || t[row + 2][col] != Walkable || t[row + 3][col] != Walkable))
      && (r == Ok(false) <==>
            WalkableAt(t, Cell(row + 1, col)) && WalkableAt(t, Cell(row + 2, col)) && WalkableAt(t, Cell(row + 3, col)))
      && (r.Panic? <==> ChainPanics(t, Cell(row + 1, col), Cell(row + 2, col), Cell(row + 3, col)))
  {
    var offsetX := InitX + scrollX;
    if Rem8(offsetX) != 0 then Ok(false)
    else
      var lastTile := Quot8(offsetX);
      var tileY := Quot8(InitY + scrollY);
      Probe3(t, Cell(tileY + 1, lastTile), Cell(tileY + 2, lastTile), Cell(tileY + 3, lastTile))
  }

  /** `path_up_blocked`: only when the character's pixel row `64 + scroll_y`
      is a multiple of 8 does it look at the map, sampling the character's own
      tile row at columns 1 to 3 right of it. The column is rounded toward
      zero. */
  function PathUpBlocked(scrollX: int, scrollY: int, t: seq<seq<nat>>): (r: Result<bool>)
    requires IsTileMap(t)
    ensures (InitY + scrollY) % 8 != 0 ==> r == Ok(false)
    ensures (InitY + scrollY) % 8 == 0 ==>
      var row := (InitY + scrollY) / 8;
      var col := Quot8(InitX + scrollX);
      && (0 <= row < MapSide && 0 <= col + 1 && col + 3 < MapSide ==>
            r == Ok(t[row][col + 1] != Walkable || t[row][col + 2] != Walkable || t[row][col + 3] != Walkable))
      && (r == Ok(false) <==>
            WalkableAt(t, Cell(row, col + 1)) && WalkableAt(t, Cell(row, col + 2)) && WalkableAt(t, Cell(row, col + 3)))
      && (r.Panic? <==> ChainPanics(t, Cell(row, col + 1), Cell(row, col + 2), Cell(row, col + 3)))
  {
    var offsetY := InitY + scrollY;
    if Rem8(offsetY) != 0 then Ok(false)
    else
      var lastTile := Quot8(offsetY);
      var tileX := Quot8(InitX + scrollX);
      Probe3(t, Cell(lastTile, tileX + 1), Cell(lastTile, tileX + 2), Cell(lastTile, tileX + 3))
  }

  /** `path_down_blocked`: the same alignment guard as upward, sampling the
      tile row three below the character's, at columns 1 to 3 right of it. */
  function PathDownBlocked(scrollX: int, scrollY: int, t: seq<seq<nat>>): (r: Result<bool>)
    requires IsTileMap(t)
    ensures (InitY + scrollY) % 8 != 0 ==> r == Ok(false)
    ensures (InitY + scrollY) % 8 == 0 ==>
      var row := (InitY + scrollY) / 8 + 3;
      var col := Quot8(InitX + scrollX);
      && (0 <= row < MapSide && 0 <= col + 1 && col + 3 < MapSide ==>
            r == Ok(t[row][col + 1] != Walkable || t[row][col + 2] != Walkable || t[row][col + 3] != Walkable))
      && (r == Ok(false) <==>
            WalkableAt(t, Cell(row, col + 1)) && WalkableAt(t, Cell(row, col + 2)) && WalkableAt(t, Cell(row, col + 3)))
      && (r.Panic? <==> ChainPanics(t, Cell(row, col + 1), Cell(row, col + 2), Cell(row, col + 3)))
  {
    var offsetY := InitY + scrollY;
    if Rem8(offsetY) != 0 then Ok(false)
    else
      var nextTile := Quot8(offsetY) + 3;
      var tileX := Quot8(InitX + scrollX);
      Probe3(t, Cell(nextTile, tileX + 1), Cell(nextTile, tileX + 2), Cell(nextTile, tileX + 3))
  }

  /** The horizontal half of a frame of `run`: try the position one pixel in
      the input direction and adopt it unless the predicate for that direction
      reports it blocked. */
  function StepX(scrollX: int, scrollY: int, xt: Tri, t: seq<seq<nat>>): (r: Result<int>)
    requires IsTileMap(t)
    ensures r.Ok? ==> r.value == scrollX || r.value == scrollX + xt.Value()
    ensures xt == Zero ==> r == Ok(scrollX)
    ensures xt == Positive ==>
      && (r == Ok(scrollX + 1) <==> PathRightBlocked(scrollX + 1, scrollY, t) == Ok(false))
      && (r == Ok(scrollX) <==> PathRightBlocked(scrollX + 1, scrollY, t) == Ok(true))
    ensures xt == Negative ==>
      && (r == Ok(scrollX - 1) <==> PathLeftBlocked(scrollX - 1, scrollY, t) == Ok(false))
      && (r == Ok(scrollX) <==> PathLeftBlocked(scrollX - 1, scrollY, t) == Ok(true))
  {
    match xt
    case Positive =>
      var blocked :- PathRightBlocked(scrollX + 1, scrollY, t);
      Ok(if !blocked then scrollX + 1 else scrollX)
    case Negative =>
      var blocked :- PathLeftBlocked(scrollX - 1, scrollY, t);
      Ok(if !blocked then scrollX - 1 else scrollX)
    case Zero => Ok(scrollX)
  }

  /** The vertical half of a frame of `run`, the same rule on the other
      axis. */
  function StepY(scrollX: int, scrollY: int, yt: Tri, t: seq<seq<nat>>): (r: Result<int>)
    requires IsTileMap(t)
    ensures r.Ok? ==> r.value == scrollY || r.value == scrollY + yt.Value()
    ensures yt == Zero ==> r == Ok(scrollY)
    ensures yt == Positive ==>
      && (r == Ok(scrollY + 1) <==> PathDownBlocked(scrollX, scrollY + 1, t) == Ok(false))
      && (r == Ok(scrollY) <==> PathDownBlocked(scrollX, scrollY + 1, t) == Ok(true))
    ensures yt == Negative ==>
      && (r == Ok(scrollY - 1) <==> PathUpBlocked(scrollX, scrollY - 1, t) == Ok(false))
      && (r == Ok(scrollY) <==> PathUpBlocked(scrollX, scrollY - 1, t) == Ok(true))
  {
    match yt
    case Positive =>
      var blocked :- PathDownBlocked(scrollX, scrollY + 1, t);
      Ok(if !blocked then scrollY + 1 else scrollY)
    case Negative =>
      var blocked :- PathUpBlocked(scrollX, scrollY - 1, t);
      Ok(if !blocked then scrollY - 1 else scrollY)
    case Zero => Ok(scrollY)
  }

  /** One frame of `run`'s scroll update: the horizontal step first, then the
      vertical one, whose predicate already sees the new horizontal scroll. */
  function ScrollFrame(scrollX: int, scrollY: int, b: Buttons, t: seq<seq<nat>>): (r: Result<(int, int)>)
    requires IsTileMap(t)
    ensures r.Ok? ==> -1 <= r.value.0 - scrollX <= 1 && -1 <= r.value.1 - scrollY <= 1
    ensures r.Ok? ==> r.value.0 - scrollX in {0, XTri(b).Value()} && r.value.1 - scrollY in {0, YTri(b).Value()}
    ensures r.Ok? <==>
      (StepX(scrollX, scrollY, XTri(b), t).Ok? &&
       StepY(StepX(scrollX, scrollY, XTri(b), t).value, scrollY, YTri(b), t).Ok?)
    ensures r.Ok? ==>
      && StepX(scrollX, scrollY, XTri(b), t) == Ok(r.value.0)
      && StepY(r.value.0, scrollY, YTri(b), t) == Ok(r.value.1)
  {
    var x :- StepX(scrollX, scrollY, XTri(b), t);
    var y :- StepY(x, scrollY, YTri(b), t);
    Ok((x, y))
  }
}

=== FILE: app_bc.dfy ===
/** The step-movement prototype of the game: the character walks 33 pixels
    (`STEP` + 1) at a time. A key press starts a movement only while none is
    in progress; each tick moves the sprite one pixel, turns it to face the
    movement, advances its frame counter, and counts the movement down. */
module AppBc {
  import opened RustCore
  import opened Input
  import Sprites
  import Clock

  /** `INITIAL_COORDINATES`: where the character is placed. */
  const InitX: int := 104
  const InitY: int := 64

  /** `STEP`: the step count a new movement starts with. */
  const Step: int := 32

  datatype MovementType = Up | Down | Left | Right

  /** A movement in progress: its direction and the ticks left before the
      last one. */
  datatype Movement = Movement(tp: MovementType, step: int)

  /** The character: sprite position, tag, frame counter and the movement in
      progress, if any. */
  datatype Walker = Walker(x: int, y: int, tag: Sprites.Tag, frame: nat, movement: Option<Movement>)

  /** The character as `run` places it. */
  const Start: Walker := Walker(InitX, InitY, Sprites.Front, 0, None)

  /** The pixel offset of `k` ticks in one direction (screen y grows
      downward). */
  function Shift(tp: MovementType, k: int): (int, int) {
    match tp
    case Up => (0, -k)
    case Down => (0, k)
    case Left => (-k, 0)
    case Right => (k, 0)
  }

  /** The tag the character shows while moving in each direction. */
  function Facing(tp: MovementType): Sprites.Tag {
    match tp
    case Up => Sprites.Back
    case Down => Sprites.Front
    case Left => Sprites.Left
    case Right => Sprites.Right
  }

  /** A movement in progress never has a negative step count nor more than
      `STEP`. */
  predicate Valid(c: Walker) {
    c.movement.Some? ==> 0 <= c.movement.value.step <= Step
  }

  /** `Char::process`: ignored while a movement is in progress; otherwise a
      horizontal input chooses Right or Left, and then a vertical input, if
      any, overrides it with Down or Up. */
  function Process(c: Walker, xt: Tri, yt: Tri): (r: Walker)
    ensures c.movement.Some? ==> r == c
    ensures c.movement.None? && yt == Positive ==> r.movement == Some(Movement(Down, Step))
    ensures c.movement.None? && yt == Negative ==> r.movement == Some(Movement(Up, Step))
    ensures c.movement.None? && yt == Zero && xt == Positive ==> r.movement == Some(Movement(Right, Step))
    ensures c.movement.None? && yt == Zero && xt == Negative ==> r.movement == Some(Movement(Left, Step))
    ensures xt == Zero && yt == Zero ==> r == c
    ensures r.x == c.x && r.y == c.y && r.tag == c.tag && r.frame == c.frame
    ensures Valid(c) ==> Valid(r)
  {
    if c.movement.Some? then c
    else
      var afterX :=
        match xt
        case Positive => Some(Movement(Right, Step))
        case Negative => Some(Movement(Left, Step))
        case Zero => c.movement;
      var afterY :=
        match yt
        case Positive => Some(Movement(Down, Step))
        case Negative => Some(Movement(Up, Step))
        case Zero => afterX;
      c.(movement := afterY)
  }

  /** `Char::tick`: with a movement in progress, move one pixel in its
      direction, face it, advance the frame counter against the new tag, and
      count the step down, clearing the movement after the tick at step 0.
      Without one, nothing changes. */
  function Tick(c: Walker, sprites: Sprites.Tag -> nat): (r: Walker)
    ensures c.movement.None? ==> r == c
    ensures c.movement.Some? ==>
      var tp := c.movement.value.tp;
      && (r.x - c.x, r.y - c.y) == Shift(tp, 1)
      && r.tag == Facing(tp)
      && r.frame == Sprites.NextFrame(c.frame, sprites(r.tag))
    ensures c.movement.Some? ==> (r.movement.None? <==> c.movement.value.step == 0)
    ensures c.movement.Some? && c.movement.value.step != 0 ==>
      r.movement == Some(Movement(c.movement.value.tp, c.movement.value.step - 1))
    ensures Valid(c) ==> Valid(r)
  {
    match c.movement
    case None => c
    case Some(movement) =>
      var (x, y, tag) :=
        match movement.tp
        case Up => (c.x, c.y - 1, Sprites.Back)
        case Down => (c.x, c.y + 1, Sprites.Front)
        case Left => (c.x - 1, c.y, Sprites.Left)
        case Right => (c.x + 1, c.y, Sprites.Right);
      var frame := Sprites.NextFrame(c.frame, sprites(tag));
      var next := if movement.step == 0 then None else Some(Movement(movement.tp, movement.step - 1));
      Walker(x, y, tag, frame, next)
  }

  /** `k` ticks in a row. */
  function Ticks(c: Walker, k: nat, sprites: Sprites.Tag -> nat): Walker
    decreases k
  {
    if k == 0 then c else Ticks(Tick(c, sprites), k - 1, sprites)
  }

  /** A movement with step count `s` lasts exactly `s + 1` ticks: after `k`
      of them (`k <= s`) it is still in progress with `s - k` left, the sprite
      having moved `k` pixels in its direction. */
  lemma {:induction false} MovementProgress(c: Walker, k: nat, sprites: Sprites.Tag -> nat)
    requires c.movement.Some? && k <= c.movement.value.step
    ensures
      var tp, s := c.movement.value.tp, c.movement.value.step;
      var r := Ticks(c, k, sprites);
      && r.movement == Some(Movement(tp, s - k))
      && (r.x - c.x, r.y - c.y) == Shift(tp, k)
    decreases k
  {
    if k > 0 {
      MovementProgress(Tick(c, sprites), k - 1, sprites);
    }
  }

  /** A movement started with step count `s >= 0` displaces the sprite by
      exactly `s + 1` pixels in its direction, leaves it facing that way, and
      then ends. */
  lemma MovementDisplacement(c: Walker, sprites: Sprites.Tag -> nat)
    requires c.movement.Some? && c.movement.value.step >= 0
    ensures
      var tp, s := c.movement.value.tp, c.movement.value.step;
      var r := Ticks(c, s + 1, sprites);
      && r.movement.None?
      && (r.x - c.x, r.y - c.y) == Shift(tp, s + 1)
      && r.tag == Facing(tp)
  {
    var s := c.movement.value.step;
    MovementProgress(c, s, sprites);
    TicksSplit(c, s, sprites);
  }

  /** Ticking `k + 1` times is ticking `k` times and then once more. */
  lemma {:induction false} TicksSplit(c: Walker, k: nat, sprites: Sprites.Tag -> nat)
    ensures Ticks(c, k + 1, sprites) == Tick(Ticks(c, k, sprites), sprites)
    decreases k
  {
    if k > 0 {
      TicksSplit(Tick(c, sprites), k - 1, sprites);
    }
  }

  /** A movement started by a key press walks the character 33 pixels
      (`STEP` + 1): vertically if the vertical axis is pressed, else
      horizontally. */
  lemma PressWalksStepPlusOne(c: Walker, xt: Tri, yt: Tri, sprites: Sprites.Tag -> nat)
    requires c.movement.None? && (xt != Zero || yt != Zero)
    ensures
      var r := Ticks(Process(c, xt, yt), Step + 1, sprites);
      && r.movement.None?
      && (yt != Zero ==> r.x == c.x && r.y == c.y + 33 * yt.Value())
      && (yt == Zero ==> r.y == c.y && r.x == c.x + 33 * xt.Value())
  {
    MovementDisplacement(Process(c, xt, yt), sprites);
  }

  /** The state `run` carries from frame to frame. */
  datatype World = World(count: nat, walker: Walker)

  /** The second half of a due frame: process the input, then tick. A
      movement in progress just ticks. An idle character without input stays
      still; otherwise the press starts a movement (vertical before
      horizontal) whose first pixel is moved at once. */
  function ProcessThenTick(c: Walker, b: Buttons, sprites: Sprites.Tag -> nat): (r: Walker)
    ensures Valid(c) ==> Valid(r)
    ensures c.movement.Some? ==> r == Tick(c, sprites)
    ensures c.movement.None? && XTri(b) == Zero && YTri(b) == Zero ==> r == c
    ensures c.movement.None? && YTri(b) != Zero ==>
      && r.movement == Some(Movement(if YTri(b) == Positive then Down else Up, Step - 1))
      && r.y == c.y + YTri(b).Value()
      && r.x == c.x
    ensures c.movement.None? && YTri(b) == Zero && XTri(b) != Zero ==>
      && r.movement == Some(Movement(if XTri(b) == Positive then Right else Left, Step - 1))
      && r.x == c.x + XTri(b).Value()
      && r.y == c.y
    ensures r.movement.Some? ==> r.tag == Facing(r.movement.value.tp)
    ensures c.movement.None? && (XTri(b) != Zero || YTri(b) != Zero) ==>
      r.frame == Sprites.NextFrame(c.frame, sprites(r.tag))
  {
    Tick(Process(c, XTri(b), YTri(b)), sprites)
  }

  /** The character's work on a due frame: tick, process the input, and tick
      once more. An idle character without input stays still; input starts a
      movement (vertical before horizontal) whose first step is taken at once;
      a movement in progress advances two steps. */
  function DueWalk(c: Walker, b: Buttons, sprites: Sprites.Tag -> nat): (r: Walker)
    ensures Valid(c) ==> Valid(r)
    ensures -2 <= r.x - c.x <= 2 && -2 <= r.y - c.y <= 2
    ensures c.movement.None? && XTri(b) == Zero && YTri(b) == Zero ==> r == c
    ensures c.movement.None? && YTri(b) != Zero ==>
      && r.movement == Some(Movement(if YTri(b) == Positive then Down else Up, Step - 1))
      && r.y == c.y + YTri(b).Value()
      && r.x == c.x
    ensures c.movement.None? && YTri(b) == Zero && XTri(b) != Zero ==>
      && r.movement == Some(Movement(if XTri(b) == Positive then Right else Left, Step - 1))
      && r.x == c.x + XTri(b).Value()
      && r.y == c.y
    ensures c.movement.Some? && c.movement.value.step != 0 ==>
      var m := c.movement.value;
      && (r.x - c.x, r.y - c.y) == Shift(m.tp, 2)
      && r.movement == (if m.step == 1 then None else Some(Movement(m.tp, m.step - 2)))
    ensures c.movement.Some? && c.movement.value.step == 0 ==>
      var d := Shift(c.movement.value.tp, 1);
      && (XTri(b) == Zero && YTri(b) == Zero ==> r.movement.None? && r.x == c.x + d.0 && r.y == c.y + d.1)
      && (YTri(b) != Zero ==>
            && r.movement == Some(Movement(if YTri(b) == Positive then Down else Up, Step - 1))
            && r.x == c.x + d.0 && r.y == c.y + d.1 + YTri(b).Value())
      && (YTri(b) == Zero && XTri(b) != Zero ==>
            && r.movement == Some(Movement(if XTri(b) == Positive then Right else Left, Step - 1))
            && r.x == c.x + d.0 + XTri(b).Value() && r.y == c.y + d.1)
    ensures r.movement.Some? ==> r.tag == Facing(r.movement.value.tp)
    ensures c.movement.Some? && r.movement.None? ==> r.tag == Facing(c.movement.value.tp)
    ensures c.movement.Some? && c.movement.value.step != 0 ==>
      var f := Facing(c.movement.value.tp);
      r.frame == Sprites.NextFrame(Sprites.NextFrame(c.frame, sprites(f)), sprites(f))
  {
    ProcessThenTick(Tick(c, sprites), b, sprites)
  }

  /** One iteration of `run`'s loop. Every frame ticks the character; a due
      frame (every fifth) also processes the input and ticks once more, which
      `DueWalk` does all at once, and resets the counter. The counter is then
      incremented, so a due frame always leaves it at 1. */
  function Frame(w: World, b: Buttons, sprites: Sprites.Tag -> nat): (r: World)
    ensures r.count == Clock.Next(w.count)
    ensures Valid(w.walker) ==> Valid(r.walker)
    ensures -2 <= r.walker.x - w.walker.x <= 2 && -2 <= r.walker.y - w.walker.y <= 2
    ensures w.walker.movement.None? && (!Clock.Due(w.count) || (XTri(b) == Zero && YTri(b) == Zero)) ==>
      r.walker == w.walker
    ensures w.walker.movement.None? && Clock.Due(w.count) && YTri(b) != Zero ==>
      && r.walker.movement == Some(Movement(if YTri(b) == Positive then Down else Up, Step - 1))
      && r.walker.y == w.walker.y + YTri(b).Value()
      && r.walker.x == w.walker.x
    ensures w.walker.movement.None? && Clock.Due(w.count) && YTri(b) == Zero && XTri(b) != Zero ==>
      && r.walker.movement == Some(Movement(if XTri(b) == Positive then Right else Left, Step - 1))
      && r.walker.x == w.walker.x + XTri(b).Value()
      && r.walker.y == w.walker.y
    ensures w.walker.movement.Some? && !Clock.Due(w.count) ==>
      var m := w.walker.movement.value;
      && (r.walker.x - w.walker.x, r.walker.y - w.walker.y) == Shift(m.tp, 1)
      && r.walker.movement == (if m.step == 0 then None else Some(Movement(m.tp, m.step - 1)))
    ensures w.walker.movement.Some? && w.walker.movement.value.step != 0 && Clock.Due(w.count) ==>
      var m := w.walker.movement.value;
      && (r.walker.x - w.walker.x, r.walker.y - w.walker.y) == Shift(m.tp, 2)
      && r.walker.movement == (if m.step == 1 then None else Some(Movement(m.tp, m.step - 2)))
    ensures w.walker.movement.Some? && w.walker.movement.value.step == 0 && Clock.Due(w.count) ==>
      var d := Shift(w.walker.movement.value.tp, 1);
      && (XTri(b) == Zero && YTri(b) == Zero ==>
            r.walker.movement.None? && r.walker.x == w.walker.x + d.0 && r.walker.y == w.walker.y + d.1)
      && (YTri(b) != Zero ==>
            && r.walker.movement == Some(Movement(if YTri(b) == Positive then Down else Up, Step - 1))
            && r.walker.x == w.walker.x + d.0 && r.walker.y == w.walker.y + d.1 + YTri(b).Value())
      && (YTri(b) == Zero && XTri(b) != Zero ==>
            && r.walker.movement == Some(Movement(if XTri(b) == Positive then Right else Left, Step - 1))
            && r.walker.x == w.walker.x + d.0 + XTri(b).Value() && r.walker.y == w.walker.y + d.1)
    ensures r.walker.movement.Some? ==> r.walker.tag == Facing(r.walker.movement.value.tp)
    ensures w.walker.movement.Some? && r.walker.movement.None? ==>
      r.walker.tag == Facing(w.walker.movement.value.tp)
    ensures w.walker.movement.Some? && !Clock.Due(w.count) ==>
      r.walker.frame == Sprites.NextFrame(w.walker.frame, sprites(Facing(w.walker.movement.value.tp)))
  {
    if Clock.Due(w.count) then
      World(1, DueWalk(w.walker, b, sprites))
    else
      World(w.count + 1, Tick(w.walker, sprites))
  }

  /** Several iterations of the loop, one per frame of input. */
  function Frames(w: World, inputs: seq<Buttons>, sprites: Sprites.Tag -> nat): World
    decreases |inputs|
  {
    if |inputs| == 0 then w else Frames(Frame(w, inputs[0], sprites), inputs[1..], sprites)
  }

  /** Whatever the input, every frame keeps a movement's step count within
      `0..=STEP`, and the counter follows the frame divider. */
  lemma {:induction false} FramesKeepValid(w: World, inputs: seq<Buttons>, sprites: Sprites.Tag -> nat)
    requires Valid(w.walker)
    ensures Valid(Frames(w, inputs, sprites).walker)
    ensures Frames(w, inputs, sprites).count == Clock.Run(w.count, |inputs|)
    decreases |inputs|
  {
    if |inputs| > 0 {
      FramesKeepValid(Frame(w, inputs[0], sprites), inputs[1..], sprites);
    }
  }

  /** From the start of `run` the character is never in an invalid movement
      state, and input is processed exactly in frames 0, 5, 10, ... */
  lemma RunStaysValid(inputs: seq<Buttons>, sprites: Sprites.Tag -> nat)
    ensures Valid(Frames(World(0, Start), inputs, sprites).walker)
    ensures Clock.Due(Frames(World(0, Start), inputs, sprites).count) <==> |inputs| % Clock.Period == 0
  {
    FramesKeepValid(World(0, Start), inputs, sprites);
    Clock.Schedule(|inputs|);
  }
}

=== FILE: app_ret.dfy ===
/** The level prototype of the game: a 64x32 level map in which tile 1 is a
    wall, a character whose tag follows the pressed direction and whose frame
    counter advances while a direction is held, a second entity kind that
    drifts against the input, and a loop that scrolls the level by the input
    each frame unless the boundary check reports a wall. */
module AppRet {
  import opened RustCore
  import opened Input
  import opened Sprites
  import Clock

  /** Size of `LEVEL_MAP`, `[[usize; 64]; 32]`. */
  const LevelRows: nat := 32
  const LevelCols: nat := 64

  /** The tile index that blocks movement. */
  const Wall: nat := 1

  predicate IsLevel(level: seq<seq<nat>>) {
    |level| == LevelRows && forall r :: 0 <= r < LevelRows ==> |level[r]| == LevelCols
  }

  /** The four cells `check_boundary` reads, as offsets from the tile the
      scroll position falls in, in the order it reads them. */
  predicate SampledInBounds(xo: int, yo: int) {
    0 <= 8 + yo && 12 + yo < LevelRows && 0 <= 14 + xo && 15 + xo < LevelCols
  }

  /** `check_boundary`: the scroll position, divided by 8 rounding toward
      zero, selects four cells of the level around the character; any of them
      holding a wall blocks. All four are read before the test, so any
      sampled index out of range panics. */
  function CheckBoundary(scrollX: int, scrollY: int, level: seq<seq<nat>>): (r: Result<bool>)
    requires IsLevel(level)
    ensures r.Ok? <==> SampledInBounds(Quot8(scrollX), Quot8(scrollY))
    ensures r.Ok? ==>
      var xo, yo := Quot8(scrollX), Quot8(scrollY);
      (r.value <==>
        level[10 + yo][15 + xo] == Wall || level[10 + yo][14 + xo] == Wall ||
        level[12 + yo][15 + xo] == Wall || level[8 + yo][15 + xo] == Wall)
  {
    var xOffset := Quot8(scrollX);
    var yOffset := Quot8(scrollY);
    var right :- Index2(level, 10 + yOffset, 15 + xOffset);
    var left :- Index2(level, 10 + yOffset, 14 + xOffset);
    var top :- Index2(level, 12 + yOffset, 15 + xOffset);
    var bottom :- Index2(level, 8 + yOffset, 15 + xOffset);
    Ok(right == Wall || left == Wall || top == Wall || bottom == Wall)
  }

  /** Replacing tiles other than walls by other non-wall tiles never changes
      the outcome of the boundary check: only tile 1 blocks. */
  lemma OnlyWallsBlock(scrollX: int, scrollY: int, level: seq<seq<nat>>, level': seq<seq<nat>>)
    requires IsLevel(level) && IsLevel(level')
    requires forall r, c :: 0 <= r < LevelRows && 0 <= c < LevelCols ==>
      (level[r][c] == Wall <==> level'[r][c] == Wall)
    ensures CheckBoundary(scrollX, scrollY, level) == CheckBoundary(scrollX, scrollY, level')
  {
  }

  /** The player character: its current tag and frame counter. Its screen
      position never changes. */
  datatype Hero = Hero(current: Tag, idx: nat)

  /** `Char::tick`: each held direction in turn (DOWN, UP, RIGHT, LEFT)
      overwrites the tag, so the last one held in that order wins; if any was
      held the frame counter advances against the new tag's sprite count. */
  function CharTick(h: Hero, b: Buttons, sprites: Tag -> nat): (r: Hero)
    ensures b.left ==> r.current == Left
    ensures !b.left && b.right ==> r.current == Right
    ensures !b.left && !b.right && b.up ==> r.current == Back
    ensures !b.left && !b.right && !b.up && b.down ==> r.current == Front
    ensures !b.AnyPressed() ==> r == h
    ensures b.AnyPressed() ==> r.idx == NextFrame(h.idx, sprites(r.current))
    ensures b.AnyPressed() ==> r.idx <= sprites(r.current) + 1
  {
    var afterDown := if b.down then Front else h.current;
    var afterUp := if b.up then Back else afterDown;
    var afterRight := if b.right then Right else afterUp;
    var afterLeft := if b.left then Left else afterRight;
    var animate := b.down || b.up || b.right || b.left;
    if animate then Hero(afterLeft, NextFrame(h.idx, sprites(afterLeft)))
    else Hero(afterLeft, h.idx)
  }

  /** A non-player object: its tag, frame counter and position. */
  datatype StaticObj = StaticObj(current: Tag, idx: nat, x: int, y: int)

  /** `StaticObj::tick`: the object moves two pixels against the input, on the
      horizontal axis if it is pressed and otherwise on the vertical one; its
      frame counter advances every tick. */
  function StaticTick(o: StaticObj, xt: Tri, yt: Tri, sprites: Tag -> nat): (r: StaticObj)
    ensures r.x == o.x - 2 * xt.Value()
    ensures xt == Zero ==> r.y == o.y - 2 * yt.Value()
    ensures xt != Zero ==> r.y == o.y
    ensures r.current == o.current
    ensures r.idx == NextFrame(o.idx, sprites(o.current))
  {
    var (x, y) :=
      match xt
      case Negative => (o.x + 2, o.y)
      case Positive => (o.x - 2, o.y)
      case Zero =>
        match yt
        case Negative => (o.x, o.y + 2)
        case Positive => (o.x, o.y - 2)
        case Zero => (o.x, o.y);
    StaticObj(o.current, NextFrame(o.idx, sprites(o.current)), x, y)
  }

  /** The state `run` carries from frame to frame. */
  datatype World = World(count: nat, scrollX: int, scrollY: int, hero: Hero)

  /** The initial state: counter 0, no scroll, the character facing front. */
  const Start: World := World(0, 0, 0, Hero(Front, 0))

  /** One iteration of `run`'s loop: on every fifth frame tick the character,
      then move the scroll by the input unless the boundary check at the
      candidate position reports a wall. */
  function Frame(w: World, b: Buttons, level: seq<seq<nat>>, sprites: Tag -> nat): (r: Result<World>)
    requires IsLevel(level)
    ensures r.Ok? ==> r.value.count == Clock.Next(w.count)
    ensures r.Ok? && w.count <= Clock.Period ==> 1 <= r.value.count <= Clock.Period
    ensures r.Ok? ==> r.value.hero == (if Clock.Due(w.count) then CharTick(w.hero, b, sprites) else w.hero)
    ensures
      var candX, candY := w.scrollX + XTri(b).Value(), w.scrollY + YTri(b).Value();
      && (r.Panic? <==> CheckBoundary(candX, candY, level).Panic?)
      && (CheckBoundary(candX, candY, level) == Ok(false) ==>
            r.Ok? && r.value.scrollX == candX && r.value.scrollY == candY)
      && (CheckBoundary(candX, candY, level) == Ok(true) ==>
            r.Ok? && r.value.scrollX == w.scrollX && r.value.scrollY == w.scrollY)
  {
    var (count, hero) :=
      if w.count % Clock.Period == 0 then (0, CharTick(w.hero, b, sprites)) else (w.count, w.hero);
    var newX, newY := w.scrollX + XTri(b).Value(), w.scrollY + YTri(b).Value();
    var movementBlocked :- CheckBoundary(newX, newY, level);
    var (x, y) := if !movementBlocked then (newX, newY) else (w.scrollX, w.scrollY);
    Ok(World(count + 1, x, y, hero))
  }

  /** Several iterations of the loop, one per frame of input, stopping at the
      first panic. */
  function Frames(w: World, inputs: seq<Buttons>, level: seq<seq<nat>>, sprites: Tag -> nat): Result<World>
    requires IsLevel(level)
    decreases |inputs|
  {
    if |inputs| == 0 then Ok(w)
    else
      var w' :- Frame(w, inputs[0], level, sprites);
      Frames(w', inputs[1..], level, sprites)
  }

  /** The counter follows the frame divider whatever the input, so from the
      start of `run` the character ticks exactly in frames 0, 5, 10, ... and
      the counter stays within 1..5 after every frame. */
  lemma {:induction false} FramesFollowClock(w: World, inputs: seq<Buttons>, level: seq<seq<nat>>, sprites: Tag -> nat)
    requires IsLevel(level)
    requires Frames(w, inputs, level, sprites).Ok?
    ensures Frames(w, inputs, level, sprites).value.count == Clock.Run(w.count, |inputs|)
    decreases |inputs|
  {
    if |inputs| > 0 {
      var w' := Frame(w, inputs[0], level, sprites).value;
      FramesFollowClock(w', inputs[1..], level, sprites);
    }
  }

  /** From the start of `run`, after `k >= 1` frames the counter is
      `(k - 1) % 5 + 1`, so the next frame ticks the character exactly when
      `k` is a multiple of 5. */
  lemma TickSchedule(inputs: seq<Buttons>, level: seq<seq<nat>>, sprites: Tag -> nat)
    requires IsLevel(level)
    requires Frames(Start, inputs, level, sprites).Ok?
    ensures |inputs| >= 1 ==> 1 <= Frames(Start, inputs, level, sprites).value.count <= Clock.Period
    ensures Clock.Due(Frames(Start, inputs, level, sprites).value.count) <==> |inputs| % Clock.Period == 0
  {
    FramesFollowClock(Start, inputs, level, sprites);
    Clock.Schedule(|inputs|);
  }
}

=== FILE: clock.dfy ===
/** The frame divider of the game loops: a counter that makes the slow work
    (entity ticks, input processing) happen on one frame in five. Each frame
    first checks `count % 5 == 0` (and then resets `count` to 0), and ends with
    `count += 1`. */
module Clock {

  const Period: nat := 5

  /** Whether the slow work runs in a frame that starts with `count`. */
  predicate Due(count: nat) {
    count % Period == 0
  }

  /** The counter at the end of a frame that started with `count`. */
  function Next(count: nat): (r: nat)
    ensures count <= Period ==> 1 <= r <= Period
    ensures Due(count) ==> r == 1
    ensures !Due(count) ==> r == count + 1
  {
    (if Due(count) then 0 else count) + 1
  }

  /** The counter after `k` frames, starting from `count`. */
  function Run(count: nat, k: nat): nat
    decreases k
  {
    if k == 0 then count else Run(Next(count), k - 1)
  }

  /** Starting from the loop's initial `count = 0`, the counter after `k >= 1`
      frames is `(k - 1) % 5 + 1`; so the slow work runs in frame number `k`
      (counting from 0) exactly when `k` is a multiple of 5. */
  lemma {:induction false} Schedule(k: nat)
    ensures k >= 1 ==> Run(0, k) == (k - 1) % Period + 1
    ensures Due(Run(0, k)) <==> k % Period == 0
  {
    if k >= 1 {
      RunFrom(1, k - 1);
      var q := (k - 1) / Period;
      assert k - 1 == Period * q + (k - 1) % Period;
      assert k % Period == 0 <==> (k - 1) % Period == Period - 1;
    }
  }

  lemma {:induction false} RunFrom(c: nat, k: nat)
    requires 1 <= c <= Period
    ensures Run(c, k) == (c - 1 + k) % Period + 1
    decreases k
  {
    if k > 0 {
      var c' := Next(c);
      assert c' == c % Period + 1;
      RunFrom(c', k - 1);
    }
  }
}

=== FILE: input.dfy ===
/** The player's input as the game code reads it: the four direction buttons,
    and the three-valued per-axis reading derived from them. */
module Input {

  /** One axis of the direction pad: pressed toward the negative end (left or
      up), released or pressed both ways, or pressed toward the positive end
      (right or down). */
  datatype Tri = Negative | Zero | Positive {

    /** The value of `tri as i16`. */
    function Value(): int {
      match this
      case Negative => -1
      case Zero => 0
      case Positive => 1
    }
  }

  /** Which of the four direction buttons are held in the current frame. */
  datatype Buttons = Buttons(left: bool, right: bool, up: bool, down: bool) {

    /** Whether any direction is held. */
    predicate AnyPressed() {
      left || right || up || down
    }
  }

  /** The reading of an axis whose negative and positive buttons are given:
      the positive button counts +1 and the negative one -1. */
  function TriOf(negative: bool, positive: bool): (t: Tri)
    ensures t.Value() == (if positive then 1 else 0) - (if negative then 1 else 0)
  {
    if positive && !negative then Positive
    else if negative && !positive then Negative
    else Zero
  }

  /** `x_tri`: LEFT is negative, RIGHT positive. */
  function XTri(b: Buttons): Tri {
    TriOf(b.left, b.right)
  }

  /** `y_tri`: UP is negative, DOWN positive (screen y grows downward). */
  function YTri(b: Buttons): Tri {
    TriOf(b.up, b.down)
  }
}

=== FILE: mapgen.dfy ===
/** The build-time tile de-duplicator behind `generate_background_map`: it
    cuts a decoded RGB image into 8x8 blocks, gives every distinct block
    content an index in the order the contents are first seen while the blocks
    are scanned row by row, and emits the grid of those indices together with
    the list of distinct contents (the palette of tiles). */
module Mapgen {
  import opened RustCore

  newtype byte = x: int | 0 <= x < 256

  /** One pixel of the image after conversion to 8-bit RGB. */
  datatype Rgb = Rgb(r: byte, g: byte, b: byte)

  /** A decoded RGB image; `pixels[y][x]` is the pixel `get_pixel(x, y)`. */
  datatype Image = Image(width: nat, height: nat, pixels: seq<seq<Rgb>>) {

    predicate Valid() {
      && |pixels| == height
      && forall y :: 0 <= y < height ==> |pixels[y]| == width
    }
  }

  /** Side of a square tile, in pixels. */
  const TileSize: nat := 8

  /** The content of one block: its 64 pixels in collection order. */
  type Tile = seq<Rgb>

  /** Number of whole blocks across the image; a trailing partial column of
      pixels is dropped. */
  function Columns(img: Image): nat {
    img.width / TileSize
  }

  /** Number of whole blocks down the image; a trailing partial row of pixels
      is dropped. */
  function Rows(img: Image): nat {
    img.height / TileSize
  }

  function GetPixel(img: Image, x: nat, y: nat): Rgb
    requires img.Valid() && x < img.width && y < img.height
  {
    img.pixels[y][x]
  }

  /** Where, within a block's content, the pixel at x offset `i` and y offset
      `r` is collected: the x offset is the outer loop, the y offset the inner
      one. */
  function Offset(i: nat, r: nat): nat {
    i * TileSize + r
  }

  /** The content of the block in block column `m` and block row `n`, whose
      top-left pixel is `(m * 8, n * 8)`. */
  function BlockAt(img: Image, m: nat, n: nat): (t: Tile)
    requires img.Valid() && m < Columns(img) && n < Rows(img)
    ensures |t| == TileSize * TileSize
    ensures forall i, r :: 0 <= i < TileSize && 0 <= r < TileSize ==>
      t[Offset(i, r)] == GetPixel(img, m * TileSize + i, n * TileSize + r)
  {
    seq(TileSize * TileSize, k requires 0 <= k < TileSize * TileSize =>
      GetPixel(img, m * TileSize + k / TileSize, n * TileSize + k % TileSize))
  }

  /** The two nested pixel loops that collect one block: for each x offset,
      for each y offset, push `get_pixel(m * 8 + i, n * 8 + r)`. */
  method CollectTile(img: Image, m: nat, n: nat) returns (tile: Tile)
    requires img.Valid() && m < Columns(img) && n < Rows(img)
    ensures tile == BlockAt(img, m, n)
  {
    ghost var block := BlockAt(img, m, n);
    tile := [];
    var i := 0;
    while i < TileSize
      invariant 0 <= i <= TileSize
      invariant tile == block[..i * TileSize]
    {
      var r := 0;
      while r < TileSize
        invariant 0 <= r <= TileSize
        invariant tile == block[..Offset(i, r)]
      {
        assert block[Offset(i, r)] == GetPixel(img, m * TileSize + i, n * TileSize + r);
        tile := tile + [GetPixel(img, m * TileSize + i, n * TileSize + r)];
        r := r + 1;
      }
      i := i + 1;
    }
  }

  predicate NoDup<T(==)>(s: seq<T>) {
    forall i, j :: 0 <= i < j < |s| ==> s[i] != s[j]
  }

  /** `Iterator::position`: the index of the first element of `s` equal to
      `x`, if there is one. */
  function Position<T(==)>(s: seq<T>, x: T): (r: Option<nat>)
    ensures r.Some? ==> r.value < |s| && s[r.value] == x
    ensures r.Some? ==> forall j :: 0 <= j < r.value ==> s[j] != x
    ensures r.None? <==> x !in s
  {
    if |s| == 0 then None
    else if s[0] == x then Some(0)
    else match Position(s[1..], x)
      case None => None
      case Some(k) => Some(k + 1)
  }

  /** `u` is the list of the distinct elements of `s`, in the order in which
      each is first seen in `s`. */
  predicate FirstSeenPalette<T(==)>(s: seq<T>, u: seq<T>) {
    && NoDup(u)
    && (forall k :: 0 <= k < |u| ==> u[k] in s)
    && (forall i :: 0 <= i < |s| ==> s[i] in u)
    && (forall k1, k2 :: 0 <= k1 < k2 < |u| ==>
          Position(s, u[k1]).value < Position(s, u[k2]).value)
  }

  /** The palette step: `u` with `x` appended unless it is already there. */
  function Adjoin<T(==)>(u: seq<T>, x: T): seq<T> {
    if x in u then u else u + [x]
  }

  /** Reference definition of the palette: the distinct elements of `s`, each
      kept at its first occurrence, built by adjoining the elements one by
      one. */
  function FirstSeen<T(==)>(s: seq<T>): seq<T> {
    if |s| == 0 then [] else Adjoin(FirstSeen(s[..|s| - 1]), s[|s| - 1])
  }

  /** Appending to a sequence does not move the first occurrence of anything
      already in it. */
  lemma PositionAppend<T>(s: seq<T>, t: T)
    ensures forall x :: x in s ==> Position(s + [t], x) == Position(s, x)
    ensures t !in s ==> Position(s + [t], t) == Some(|s|)
  {
    forall x | x in s
      ensures Position(s + [t], x) == Position(s, x)
    {
      var p := Position(s, x).value;
      assert (s + [t])[p] == x;
    }
    if t !in s {
      assert (s + [t])[|s|] == t;
    }
  }

  /** Adjoining the next element keeps a list the first-seen palette of
      everything consumed so far. */
  lemma PaletteStep<T>(s: seq<T>, u: seq<T>, t: T)
    requires FirstSeenPalette(s, u)
    ensures FirstSeenPalette(s + [t], Adjoin(u, t))
  {
    var s' := s + [t];
    var u' := Adjoin(u, t);
    PositionAppend(s, t);
    forall i | 0 <= i < |s'|
      ensures s'[i] in u'
    {
      if i < |s| {
        assert s'[i] == s[i];
      }
    }
    if t !in u {
      assert t !in s;
      forall k | 0 <= k < |u|
        ensures Position(s', u'[k]).value < |s|
      {
        assert u'[k] == u[k];
      }
    }
  }

  /** A first-seen palette of `s + [x]` where `x` occurs in `s` is already a
      first-seen palette of `s`. */
  lemma PaletteDropRepeat<T>(s: seq<T>, x: T, u: seq<T>)
    requires x in s
    requires FirstSeenPalette(s + [x], u)
    ensures FirstSeenPalette(s, u)
  {
    PositionAppend(s, x);
    forall i | 0 <= i < |s|
      ensures s[i] in u
    {
      assert s[i] == (s + [x])[i];
    }
  }

  /** In a first-seen palette of `s + [x]` where `x` is new, `x` comes last:
      its first occurrence is the latest possible one. */
  lemma NewComesLast<T>(s: seq<T>, x: T, u: seq<T>)
    requires x !in s
    requires FirstSeenPalette(s + [x], u)
    ensures |u| > 0 && u[|u| - 1] == x
  {
    var s' := s + [x];
    assert s'[|s|] == x;
    var j :| 0 <= j < |u| && u[j] == x;
    var last := |u| - 1;
    forall k | 0 <= k < |u|
      ensures Position(s', u[k]).value <= Position(s', u[last]).value
    {
    }
    assert Position(s', u[j]) == Some(|s|);
    assert u[last] == s'[Position(s', u[last]).value];
  }

  /** A first-seen palette of `s + [x]` where `x` is new ends with `x`, and
      the rest of it is a first-seen palette of `s`. */
  lemma PaletteDropNew<T>(s: seq<T>, x: T, u: seq<T>)
    requires x !in s
    requires FirstSeenPalette(s + [x], u)
    ensures |u| > 0 && u[|u| - 1] == x
    ensures FirstSeenPalette(s, u[..|u| - 1])
  {
    NewComesLast(s, x, u);
    PositionAppend(s, x);
    var s' := s + [x];
    var last := |u| - 1;
    var w := u[..last];
    forall k | 0 <= k < last
      ensures w[k] in s
    {
      assert u[k] != u[last];
      var p := Position(s', u[k]).value;
      assert s[p] == u[k];
    }
    forall i | 0 <= i < |s|
      ensures s[i] in w
    {
      assert s[i] == s'[i];
      var k :| 0 <= k < |u| && u[k] == s[i];
      assert w[k] == s[i];
    }
  }

  /** A list is a first-seen palette of `s` exactly when it is the reference
      palette `FirstSeen(s)`: the palette exists and is unique. */
  lemma {:induction false} PaletteIsFirstSeen<T>(s: seq<T>, u: seq<T>)
    ensures FirstSeenPalette(s, u) <==> u == FirstSeen(s)
  {
    FirstSeenIsPalette(s);
    if FirstSeenPalette(s, u) && |s| == 0 {
      MembersOfEmpty(u, s);
    }
    if FirstSeenPalette(s, u) && |s| > 0 {
      var s0, x := s[..|s| - 1], s[|s| - 1];
      assert s == s0 + [x];
      if x in s0 {
        PaletteDropRepeat(s0, x, u);
        PaletteIsFirstSeen(s0, u);
        assert x in u;
      } else {
        PaletteDropNew(s0, x, u);
        PaletteIsFirstSeen(s0, u[..|u| - 1]);
        assert x !in u[..|u| - 1];
        assert u == u[..|u| - 1] + [x];
      }
    }
  }

  lemma MembersOfEmpty<T>(u: seq<T>, s: seq<T>)
    requires forall k :: 0 <= k < |u| ==> u[k] in s
    ensures |s| == 0 ==> |u| == 0
  {
    if |u| > 0 {
      assert u[0] in s;
    }
  }

  /** The reference palette is a first-seen palette. */
  lemma {:induction false} FirstSeenIsPalette<T>(s: seq<T>)
    ensures FirstSeenPalette(s, FirstSeen(s))
  {
    if |s| > 0 {
      var s0, x := s[..|s| - 1], s[|s| - 1];
      assert s == s0 + [x];
      FirstSeenIsPalette(s0);
      PaletteStep(s0, FirstSeen(s0), x);
    }
  }

  /** One step of the scan, the `match` on the position of `t` in `uniq`: a
      hit records the existing index; a miss appends `t` and records the index
      of the new last entry. */
  function Intern(uniq: seq<Tile>, t: Tile): (r: (seq<Tile>, nat))
    ensures r.0 == Adjoin(uniq, t)
    ensures r.1 < |r.0| && r.0[r.1] == t
    ensures t !in uniq ==> r.1 == |uniq|
    ensures NoDup(uniq) ==> NoDup(r.0)
  {
    match Position(uniq, t)
    case Some(index) => (uniq, index)
    case None =>
      var grown := uniq + [t];
      (grown, |grown| - 1)
  }

  /** `e` holds, for each element of `s`, an index of that element in `u`. */
  predicate Indexes(e: seq<nat>, u: seq<Tile>, s: seq<Tile>) {
    && |e| == |s|
    && forall i :: 0 <= i < |e| ==> e[i] < |u| && u[e[i]] == s[i]
  }

  /** What the scan has established after consuming the blocks `scanned`:
      the indices `emitted` for them, and `uniq` their first-seen palette. */
  predicate ScanInvariant(scanned: seq<Tile>, emitted: seq<nat>, uniq: seq<Tile>) {
    && Indexes(emitted, uniq, scanned)
    && FirstSeenPalette(scanned, uniq)
    && |uniq| <= |scanned|
  }

  /** Interning one more block keeps the scan invariant, and only ever
      appends to `uniq`. */
  lemma ScanStep(scanned: seq<Tile>, emitted: seq<nat>, uniq: seq<Tile>, t: Tile)
    requires ScanInvariant(scanned, emitted, uniq)
    ensures ScanInvariant(scanned + [t], emitted + [Intern(uniq, t).1], Intern(uniq, t).0)
    ensures uniq <= Intern(uniq, t).0
  {
    PaletteStep(scanned, uniq, t);
  }

  /** Indices stay valid when the list they point into only grows at the
      end. */
  lemma IndexesGrow(e: seq<nat>, u: seq<Tile>, u': seq<Tile>, s: seq<Tile>)
    requires Indexes(e, u, s) && u <= u'
    ensures Indexes(e, u', s)
  {
    forall i | 0 <= i < |e|
      ensures u'[e[i]] == s[i]
    {
      assert u'[e[i]] == u'[..|u|][e[i]];
    }
  }

  /** Concatenation of the rows of a grid, in order: the row-major scan. */
  function Flatten<T>(g: seq<seq<T>>): seq<T> {
    if |g| == 0 then [] else Flatten(g[..|g| - 1]) + g[|g| - 1]
  }

  lemma {:induction false} FlattenLength<T>(g: seq<seq<T>>, c: nat)
    requires forall n :: 0 <= n < |g| ==> |g[n]| == c
    ensures |Flatten(g)| == |g| * c
  {
    if |g| > 0 {
      FlattenLength(g[..|g| - 1], c);
    }
  }

  /** The grid of block contents, one row per block row. */
  function BlockGrid(img: Image): (g: seq<seq<Tile>>)
    requires img.Valid()
    ensures |g| == Rows(img)
    ensures forall n :: 0 <= n < |g| ==> |g[n]| == Columns(img)
    ensures forall n, m :: 0 <= n < Rows(img) && 0 <= m < Columns(img) ==>
      g[n][m] == BlockAt(img, m, n)
  {
    seq(Rows(img), n requires 0 <= n < Rows(img) =>
      seq(Columns(img), m requires 0 <= m < Columns(img) => BlockAt(img, m, n)))
  }

  /** The scan visits `Rows * Columns` blocks: whole blocks only. */
  lemma BlockCount(img: Image)
    requires img.Valid()
    ensures |Flatten(BlockGrid(img))| == Rows(img) * Columns(img)
  {
    FlattenLength(BlockGrid(img), Columns(img));
  }

  /** Every index in `0..count` occurs in `e`, and the first occurrence of
      each index precedes the first occurrence of every larger one. */
  predicate FirstOccurrencesAscend(e: seq<nat>, count: nat) {
    && (forall k :: 0 <= k < count ==> k in e)
    && (forall k1, k2 :: 0 <= k1 < k2 < count ==>
          Position(e, k1).value < Position(e, k2).value)
  }

  /** When every index of `e` points at the matching element of `s` in a
      first-seen palette `u`, the indices are handed out in ascending order of
      first use: 0 first, then 1, and so on. */
  lemma IndicesAscend(s: seq<Tile>, e: seq<nat>, u: seq<Tile>)
    requires Indexes(e, u, s)
    requires FirstSeenPalette(s, u)
    ensures FirstOccurrencesAscend(e, |u|)
  {
    forall k | 0 <= k < |u|
      ensures k in e && Position(e, k) == Position(s, u[k])
    {
      var p := Position(s, u[k]).value;
      assert u[e[p]] == u[k];
      forall j | 0 <= j < p
        ensures e[j] != k
      {
        assert u[e[j]] == s[j] != u[k];
      }
      PositionIs(e, k, p);
    }
  }

  /** The first occurrence of `x` is at `p` when `x` is there and nowhere
      before. */
  lemma PositionIs<T>(s: seq<T>, x: T, p: nat)
    requires p < |s| && s[p] == x
    requires forall j :: 0 <= j < p ==> s[j] != x
    ensures Position(s, x) == Some(p)
  {
    var q := Position(s, x).value;
    assert s[q] == x;
  }

  /** The scan invariant across one iteration of the block-row loop. */
  lemma RowStep(scanned: seq<Tile>, emitted: seq<nat>, row: seq<Tile>, m: nat,
                rows: seq<nat>, uniq: seq<Tile>, tile: Tile)
    requires m < |row| && row[m] == tile
    requires Indexes(rows, uniq, row[..m])
    requires ScanInvariant(scanned + row[..m], emitted + rows, uniq)
    ensures uniq <= Intern(uniq, tile).0
    ensures Indexes(rows + [Intern(uniq, tile).1], Intern(uniq, tile).0, row[..m + 1])
    ensures ScanInvariant(scanned + row[..m + 1], emitted + (rows + [Intern(uniq, tile).1]), Intern(uniq, tile).0)
  {
    var interned := Intern(uniq, tile);
    ScanStep(scanned + row[..m], emitted + rows, uniq, tile);
    IndexesGrow(rows, uniq, interned.0, row[..m]);
    assert row[..m + 1] == row[..m] + [tile];
    assert scanned + row[..m + 1] == scanned + row[..m] + [tile];
    assert emitted + (rows + [interned.1]) == emitted + rows + [interned.1];
  }

  /** One block row of the scan, the loop `for m in 0..x`: it interns the
      blocks of row `n` left to right and returns their indices. */
  method ScanRow(img: Image, n: nat, uniq0: seq<Tile>, ghost scanned: seq<Tile>, ghost emitted: seq<nat>)
    returns (rows: seq<nat>, uniq: seq<Tile>)
    requires img.Valid() && n < Rows(img)
    requires ScanInvariant(scanned, emitted, uniq0)
    ensures Indexes(rows, uniq, BlockGrid(img)[n])
    ensures uniq0 <= uniq
    ensures ScanInvariant(scanned + BlockGrid(img)[n], emitted + rows, uniq)
  {
    ghost var row := BlockGrid(img)[n];
    var x := img.width / TileSize;
    uniq := uniq0;
    rows := [];
    var m := 0;
    assert scanned + row[..m] == scanned;
    assert emitted + rows == emitted;
    while m < x
      invariant 0 <= m <= x
      invariant uniq0 <= uniq
      invariant Indexes(rows, uniq, row[..m])
      invariant ScanInvariant(scanned + row[..m], emitted + rows, uniq)
    {
      var tile := CollectTile(img, m, n);
      RowStep(scanned, emitted, row, m, rows, uniq, tile);
      var interned := Intern(uniq, tile);
      uniq := interned.0;
      rows := rows + [interned.1];
      m := m + 1;
    }
    assert row[..m] == row;
  }

  /** Over a list without duplicates, two cells of an index grid are equal
      exactly when the cells of the content grid they stand for are. */
  lemma GridSameIndexIffSameContent(e: seq<seq<nat>>, u: seq<Tile>, g: seq<seq<Tile>>)
    requires |e| == |g| && NoDup(u)
    requires forall n :: 0 <= n < |e| ==> Indexes(e[n], u, g[n]) && |e[n]| == |g[n]|
    ensures forall n1, m1, n2, m2 ::
      0 <= n1 < |e| && 0 <= m1 < |e[n1]| && 0 <= n2 < |e| && 0 <= m2 < |e[n2]| ==>
      (e[n1][m1] == e[n2][m2] <==> g[n1][m1] == g[n2][m2])
  {
    forall n1, m1, n2, m2 |
      0 <= n1 < |e| && 0 <= m1 < |e[n1]| && 0 <= n2 < |e| && 0 <= m2 < |e[n2]|
      ensures e[n1][m1] == e[n2][m2] <==> g[n1][m1] == g[n2][m2]
    {
      assert Indexes(e[n1], u, g[n1]) && Indexes(e[n2], u, g[n2]);
      assert u[e[n1][m1]] == g[n1][m1];
      assert u[e[n2][m2]] == g[n2][m2];
    }
  }

  /** Once all rows are scanned, the per-row and whole-scan invariants give
      the promised properties of the result. */
  lemma ScanComplete(img: Image, result: seq<seq<nat>>, uniq: seq<Tile>)
    requires img.Valid()
    requires |result| == Rows(img)
    requires forall n :: 0 <= n < |result| ==> Indexes(result[n], uniq, BlockGrid(img)[n])
    requires ScanInvariant(Flatten(BlockGrid(img)), Flatten(result), uniq)
    ensures forall n :: 0 <= n < |result| ==> |result[n]| == Columns(img)
    ensures forall n, m :: 0 <= n < Rows(img) && 0 <= m < Columns(img) ==>
      result[n][m] < |uniq| && uniq[result[n][m]] == BlockAt(img, m, n)
    ensures forall n1, m1, n2, m2 ::
      0 <= n1 < Rows(img) && 0 <= m1 < Columns(img) &&
      0 <= n2 < Rows(img) && 0 <= m2 < Columns(img) ==>
      (result[n1][m1] == result[n2][m2] <==> BlockAt(img, m1, n1) == BlockAt(img, m2, n2))
    ensures FirstOccurrencesAscend(Flatten(result), |uniq|)
    ensures |uniq| <= |Flatten(BlockGrid(img))|
  {
    var grid := BlockGrid(img);
    IndicesAscend(Flatten(grid), Flatten(result), uniq);
    forall n, m | 0 <= n < Rows(img) && 0 <= m < Columns(img)
      ensures result[n][m] < |uniq| && uniq[result[n][m]] == BlockAt(img, m, n)
    {
      assert Indexes(result[n], uniq, grid[n]);
      assert grid[n][m] == BlockAt(img, m, n);
    }
    GridSameIndexIffSameContent(result, uniq, grid);
  }

  /** The invariant of the block-row loop across one iteration. */
  lemma GridStep(grid: seq<seq<Tile>>, n: nat, result: seq<seq<nat>>, uniq: seq<Tile>,
                 rows: seq<nat>, uniq': seq<Tile>)
    requires n < |grid| && |result| == n
    requires forall n' :: 0 <= n' < n ==> Indexes(result[n'], uniq, grid[n'])
    requires Indexes(rows, uniq', grid[n]) && uniq <= uniq'
    requires ScanInvariant(Flatten(grid[..n]) + grid[n], Flatten(result) + rows, uniq')
    ensures forall n' :: 0 <= n' < n + 1 ==> Indexes((result + [rows])[n'], uniq', grid[n'])
    ensures ScanInvariant(Flatten(grid[..n + 1]), Flatten(result + [rows]), uniq')
  {
    forall n' | 0 <= n' < n
      ensures Indexes(result[n'], uniq', grid[n'])
    {
      IndexesGrow(result[n'], uniq, uniq', grid[n']);
    }
    assert grid[..n + 1][..n] == grid[..n];
    assert (result + [rows])[..n] == result;
  }

  /** `generate_background_map` without the image decoding and the code
      emission: the grid of tile indices and the list of distinct tiles. */
  method GenerateBackgroundMap(img: Image) returns (result: seq<seq<nat>>, uniq: seq<Tile>)
    requires img.Valid()
    ensures |result| == Rows(img)
    ensures forall n :: 0 <= n < |result| ==> |result[n]| == Columns(img)
    ensures forall n, m :: 0 <= n < Rows(img) && 0 <= m < Columns(img) ==>
      result[n][m] < |uniq| && uniq[result[n][m]] == BlockAt(img, m, n)
    ensures forall n1, m1, n2, m2 ::
      0 <= n1 < Rows(img) && 0 <= m1 < Columns(img) &&
      0 <= n2 < Rows(img) && 0 <= m2 < Columns(img) ==>
      (result[n1][m1] == result[n2][m2] <==> BlockAt(img, m1, n1) == BlockAt(img, m2, n2))
    ensures FirstSeenPalette(Flatten(BlockGrid(img)), uniq)
    ensures FirstOccurrencesAscend(Flatten(result), |uniq|)
    ensures |uniq| <= |Flatten(BlockGrid(img))|
  {
    var y := img.height / TileSize;
    ghost var grid := BlockGrid(img);
    uniq := [];
    result := [];
    var n := 0;
    while n < y
      invariant 0 <= n <= y
      invariant |result| == n
      invariant forall n' :: 0 <= n' < n ==> Indexes(result[n'], uniq, grid[n'])
      invariant ScanInvariant(Flatten(grid[..n]), Flatten(result), uniq)
    {
      var rows, uniq' := ScanRow(img, n, uniq, Flatten(grid[..n]), Flatten(result));
      GridStep(grid, n, result, uniq, rows, uniq');
      uniq := uniq';
      result := result + [rows];
      n := n + 1;
    }
    assert grid[..n] == grid;
    ScanComplete(img, result, uniq);
  }
}

=== FILE: rust_core.dfy ===
/** The pieces of Rust's semantics that the game's integer logic depends on:
    `Option`, a panic as an error result, integer division that rounds toward
    zero, and indexing into a fixed-size two-dimensional array. */
module RustCore {

  datatype Option<T> = None | Some(value: T)

  /** The only way the modelled code can fail: an array index out of bounds,
      which panics. */
  datatype Fault = IndexOutOfBounds

  /** A computation that either yields a value or panics. Usable with `:-`. */
  datatype Result<T> = Ok(value: T) | Panic(fault: Fault) {

    predicate IsFailure() {
      Panic?
    }

    function PropagateFailure<U>(): Result<U>
      requires Panic?
    {
      Panic(fault)
    }

    function Extract(): T
      requires Ok?
    {
      value
    }
  }

  /** Rust's `a / 8`: the quotient rounded toward zero, so `8 * q` lies
      between zero and `a`, less than 8 away from `a`. Every division in the
      game code is by 8, the tile side in pixels. */
  function Quot8(a: int): (q: int)
    ensures 0 <= a ==> 0 <= 8 * q <= a < 8 * q + 8
    ensures a < 0 ==> a <= 8 * q <= 0 && 8 * q < a + 8
  {
    if a >= 0 then a / 8 else -((-a) / 8)
  }

  /** Rust's `a % 8`: the remainder takes the sign of the dividend. */
  function Rem8(a: int): (r: int)
    ensures a == 8 * Quot8(a) + r
    ensures 0 <= a ==> 0 <= r < 8
    ensures a < 0 ==> -8 < r <= 0
  {
    if a >= 0 then a % 8 else -((-a) % 8)
  }

  /** Whether `g[row as usize][col as usize]` stays inside `g`. A negative
      index cast to `usize` wraps to a huge value, so it is out of bounds like
      any index past the end. */
  predicate InBounds<T>(g: seq<seq<T>>, row: int, col: int) {
    0 <= row < |g| && 0 <= col < |g[row]|
  }

  /** `g[row as usize][col as usize]`: the element, or a panic. */
  function Index2<T>(g: seq<seq<T>>, row: int, col: int): (r: Result<T>)
    ensures r.Ok? <==> InBounds(g, row, col)
    ensures r.Ok? ==> r.value == g[row][col]
  {
    if InBounds(g, row, col) then Ok(g[row][col]) else Panic(IndexOutOfBounds)
  }
}

=== FILE: sprites.dfy ===
/** Sprite animation shared by every animated entity of the game: the four
    character tags and the rule that advances a tag's frame counter. The
    number of frames in each tag comes from an aseprite file; the model takes
    it as a parameter `sprites: Tag -> nat`. */
module Sprites {

  /** The four animation tags of the character sheet. */
  datatype Tag = Front | Back | Left | Right

  /** The frame-counter update `if idx > len { 0 } else { idx + 1 }`, where
      `len` is the sprite count of the current tag. The comparison is strict,
      so the counter reaches `len + 1` before it wraps. */
  function NextFrame(idx: nat, len: nat): (r: nat)
    ensures r <= len + 1
    ensures r == 0 <==> idx > len
    ensures idx <= len ==> r == idx + 1
  {
    if idx > len then 0 else idx + 1
  }

  /** The counter after `k` advances starting from 0, with a fixed tag. */
  function FrameAfter(len: nat, k: nat): nat {
    if k == 0 then 0 else NextFrame(FrameAfter(len, k - 1), len)
  }

  /** With a fixed tag the counter climbs 0, 1, ..., len + 1 one step per
      advance. */
  lemma {:induction false} FrameRamp(len: nat, k: nat)
    requires k <= len + 1
    ensures FrameAfter(len, k) == k
  {
    if k > 0 {
      FrameRamp(len, k - 1);
    }
  }

  /** After reaching `len + 1` the counter starts over, so with a fixed tag it
      cycles with period `len + 2`. */
  lemma {:induction false} FrameCycle(len: nat, k: nat)
    ensures FrameAfter(len, k + len + 2) == FrameAfter(len, k)
  {
    if k > 0 {
      FrameCycle(len, k - 1);
    } else {
      FrameRamp(len, len + 1);
    }
  }
}
